=== FILE: README.md ===
# FightGrid board model

A Dafny model of the board module of FightGrid, a battleship-style game
(`src/fightgrid/grid.py`). The module defines:

- the closed `Direction` vocabulary: eight compass directions plus the
  sentinels `FLIP` and `NONE`;
- the `Square` cell record, whose equality compares coordinates only;
- the `Grid`, a `side_length × side_length` array of squares indexed `[y][x]`.
  It offers unchecked lookup, a bounds check, directional projection, the
  orthogonal and ring neighbour queries, and a label renderer.

Everything is pure: the grid is a `seq<seq<Square>>` inside a datatype, and
every operation is a function. So "projection never modifies the grid or the
origin" holds by construction.

Layout, one module per concept:

| file | module | contents |
|---|---|---|
| `config.dfy` | `Config` | `GRID_SIZE`, the configured board size, kept abstract (any positive value) |
| `outcomes.dfy` | `Outcomes` | `Option`, and `Result` with the single failure `IndexError` |
| `direction.dfy` | `Directions` | `Direction`, its opposite, and a reference compass vector per direction |
| `square.dfy` | `Squares` | `SqState`, `Square`, construction, coordinate equality, row-major order |
| `grid.dfy` | `Grids` | construction, lookups, bounds check, projection and its lemmas |
| `neighbours.dfy` | `Neighbours` | `surrounding_squares`, `reticle_squares`, the filtering they share, and their reference description |
| `labels.dfy` | `Labels` | `str.join`, label choice, `grid_string_labels` and the layout of its output |

Two quirks of the code are kept exactly as written:

- The bounds check compares against the configured `GRID_SIZE`, not the
  grid's own side length. On a grid smaller than `GRID_SIZE`, a target can
  pass the check yet lie outside the array. Python then raises `IndexError`.
  The model returns `Err(IndexError)` in that case (`SmallGridProjectionFails`).
  On a grid at least `GRID_SIZE` wide, which includes the default grid, no
  projection fails (`DefaultGridNeverFails`).
- `DOWN_LEFT` and `DOWN_RIGHT` move exactly one column, whatever the
  distance. Only their row offset scales. As a result, on a grid of side
  `GRID_SIZE`, from an on-board square whose first diagonal step lands on the
  board, a diagonal projection followed by its opposite returns to the origin
  exactly when the distance is 1 (`DiagonalRoundTripIffUnit`).

On the first point the model follows the comparison, not the docstring.
The docstring of `square_valid` (`src/fightgrid/grid.py:128`) promises only
that the point is "within grid bounds". Lines 129-131 compare against
`cfg.GRID_SIZE`.

The neighbour queries have an independent reference description. Both fixed
enumeration orders (up, left, right, down; and up-left through down-right)
are row-major order. So on a grid at least `GRID_SIZE` wide, each query
returns exactly the on-board neighbours of the square, sorted row-major.
Membership is proved in both directions, and the result is proved strictly
sorted.

## Model

| member | source | states |
|---|---|---|
| `Squares.EqualityIgnoresMetadata` | src/fightgrid/grid.py:54-60 | a square equals the probe `Square(x, y)` iff its coordinates are `(x, y)`; labels, highlight and state never affect equality |
| `Squares.SquareEqIsEquivalence` | src/fightgrid/grid.py:54-60 | square equality is reflexive, symmetric and transitive |
| `Squares.SortedByMembershipIsUnique` | src/fightgrid/grid.py:135-157 | two strictly row-major sorted lists with the same members are the same list; this is why sorted order plus membership determines each neighbour query's result |
| `Grids.NewGrid` | src/fightgrid/grid.py:71-84 | the grid has `side_length` rows of `side_length` cells (none when negative); the cell at row `y`, column `x` has coordinates `(x, y)`, the default labels, no highlight and state `EMPTY` |
| `Grids.GetSquare` | src/fightgrid/grid.py:86-88 | on an in-array probe of a constructed grid, returns the grid's own cell, which equals the probe |
| `Grids.GetSquareXY` | src/fightgrid/grid.py:90-92 | on in-array coordinates of a constructed grid, returns the grid's own cell with exactly those coordinates |
| `Grids.LookupRoundTrip` | src/fightgrid/grid.py:78-92 | for every in-range `(x, y)`, both lookups on a new grid return the square built for `(x, y)`, equal to the probe `Square(x, y)` |
| `Grids.CellsAreKeyedByCoordinates` | src/fightgrid/grid.py:54-60 | two cells of a constructed grid are equal as squares exactly when they sit at the same row and column, so coordinates identify a single cell |
| `Grids.SquareValidIff` | src/fightgrid/grid.py:127-133 | the bounds check holds iff `0 <= x < GRID_SIZE` and `0 <= y < GRID_SIZE` |
| `Grids.SquareValidBoundaries` | src/fightgrid/grid.py:127-133 | the bounds check rejects `x = -1`, `y = -1`, `x = GRID_SIZE` and `y = GRID_SIZE`, and accepts every on-board square |
| `Grids.ValidIsInArray` | src/fightgrid/grid.py:127-133 | on a grid at least `GRID_SIZE` wide, every square passing the bounds check names a cell of the array, and lookup returns a cell equal to it |
| `Grids.ProjectedFrom` | src/fightgrid/grid.py:94-124 | `FLIP` and `NONE` give absence; on a grid at least `GRID_SIZE` wide it never fails; a present result is an on-board cell of the grid equal to the target |
| `Grids.ProjectionOutcomes` | src/fightgrid/grid.py:100-124 | absence iff sentinel direction or out-of-bounds target; failure iff a target that passed the bounds check lies outside the array |
| `Grids.ProjectionOnBoard` | src/fightgrid/grid.py:100-123 | on a grid at least `GRID_SIZE` wide, a compass projection yields the grid's cell at the target when the target is on the board, and absence otherwise |
| `Grids.TargetFollowsCompass` | src/fightgrid/grid.py:100-123 | the target is the origin plus distance times the direction's compass vector, except that `DOWN_LEFT`/`DOWN_RIGHT` move one column; sentinels have no target |
| `Grids.OrthogonalRoundTrip` | src/fightgrid/grid.py:109-123 | with `side_length == GRID_SIZE`, from an on-board square whose first step lands on the board, projecting UP/DOWN/LEFT/RIGHT and then the opposite way by the same distance returns the origin's cell |
| `Grids.DiagonalRoundTripIffUnit` | src/fightgrid/grid.py:103-117 | with `side_length == GRID_SIZE`, from an on-board square whose first diagonal step lands on the board, a diagonal projection followed by its opposite returns the origin's cell iff the distance is 1 |
| `Grids.ClosedLoopFromCorner` | src/fightgrid/grid.py:109-123 | on a grid of side `GRID_SIZE`, RIGHT, DOWN, LEFT, UP by `GRID_SIZE - 1` from `(0, 0)` visit the other three corners and come back to `(0, 0)` |
| `Grids.DownBySizeIsAbsent` | src/fightgrid/grid.py:109-111 | projecting DOWN by `GRID_SIZE` from any square with `y >= 0` gives absence, on any grid |
| `Grids.DefaultGridNeverFails` | src/fightgrid/grid.py:71-133 | no projection on a grid of the default side length `GRID_SIZE` fails |
| `Grids.SmallGridProjectionFails` | src/fightgrid/grid.py:121-131 | on a 1×1 grid with `GRID_SIZE >= 2`, projecting RIGHT from `(0, 0)` passes the bounds check and fails to index |
| `Neighbours.Collect` | src/fightgrid/grid.py:137-143 | the filtered list exists iff no projection failed; it is no longer than the input; it holds exactly the present squares |
| `Neighbours.CollectSingle` | src/fightgrid/grid.py:137-143 | a single present square is kept, a single absence is dropped, and a single failure is passed on |
| `Neighbours.CollectAppend` | src/fightgrid/grid.py:137-143 | filtering a concatenation fails with the first failure from the left; otherwise it is the kept squares of the first part followed by those of the second, so filtering keeps the original order |
| `Neighbours.CollectKeepsOrder` | src/fightgrid/grid.py:143 | when the present entries are already in strict row-major order, the filtered list is strictly sorted row-major |
| `Neighbours.CollectedProjections` | src/fightgrid/grid.py:137-143 | on a grid at least `GRID_SIZE` wide, collecting compass projections never fails and gives exactly the on-board cells at their targets |
| `Neighbours.SurroundingSquares` | src/fightgrid/grid.py:135-143 | at most four squares; on a grid at least `GRID_SIZE` wide the query never fails |
| `Neighbours.SurroundingIsOrderedNeighbourhood` | src/fightgrid/grid.py:135-143 | the result is exactly the on-board cells that differ from the square by one on exactly one axis, in row-major (up, left, right, down) order |
| `Neighbours.SurroundingIsUnique` | src/fightgrid/grid.py:135-143 | on a grid at least `GRID_SIZE` wide, the result equals every row-major sorted list of exactly the on-board cells adjacent on one axis, so the reference description pins the whole list |
| `Neighbours.CentreOfThreeByThreeSurrounding` | src/fightgrid/grid.py:135-143 | from `(1, 1)` on a 3×3 grid with any `GRID_SIZE >= 3`, the result is `(1,0), (0,1), (2,1), (1,2)` |
| `Neighbours.ReticleSquares` | src/fightgrid/grid.py:145-157 | at most eight squares; on a grid at least `GRID_SIZE` wide the query never fails |
| `Neighbours.ReticleIsOrderedRing` | src/fightgrid/grid.py:145-157 | the result is exactly the on-board cells of the ring around the square, in row-major order, and never contains the square itself |
| `Neighbours.ReticleIsUnique` | src/fightgrid/grid.py:145-157 | on a grid at least `GRID_SIZE` wide, the result equals every row-major sorted list of exactly the on-board cells of the ring, so the reference description pins the whole list |
| `Neighbours.CentreOfThreeByThreeReticle` | src/fightgrid/grid.py:145-157 | from `(1, 1)` on a 3×3 grid with any `GRID_SIZE >= 3`, the result is the eight other cells from `(0,0)` to `(2,2)` in row-major order |
| `Labels.ShownLabel` | src/fightgrid/grid.py:172 | the private label when `prv`, else the public one; a missing or empty label shows as a blank, so the glyph is never empty |
| `Labels.JoinUniformAt` | src/fightgrid/grid.py:171-174 | joining parts of `k` characters with a one-character separator puts character `j` of part `i` at offset `i * (k + 1) + j`, and the separator at offset `i * (k + 1) + k` after every part but the last |
| `Labels.RenderSingleGlyphRow` | src/fightgrid/grid.py:172 | a row of single-glyph labels renders as `2n - 1` characters: glyph `x` at offset `2x`, a space at every odd offset |
| `Labels.RenderSingleGlyphGrid` | src/fightgrid/grid.py:159-174 | a side-`n` grid of single-glyph labels renders as `n` lines of `2n - 1` characters separated by newlines, every character determined by its line and column |
| `Labels.ThreeByThreeDefaultLabels` | src/fightgrid/grid.py:159-174 | a 3×3 grid with public label `"w"` renders `"w w w"` three times joined by newlines; with private label `"x"` and `prv`, `"x x x"` likewise |

## Left out

- `Square.__repr__` and `Grid.__repr__`: debug strings that depend on how Python formats enum values. No algorithm uses them.
- `fightgrid.config` is not part of this model. `GRID_SIZE` is an abstract positive constant, so each property holds for every board size its lemma's requires allows.
- Negative indices in `get_square`/`get_square_xy`: Python would wrap around. The model requires in-array, non-negative coordinates. Projection never produces a negative index, because its targets pass the bounds check first.
- The `isinstance` branch of `Square.__eq__`: in the typed model a square is only ever compared with a square.
- Mutation of a square's `highlight` and `state`: this module only stores them, and sets `state` to `EMPTY` at construction. Squares are immutable values in the model.
- Object identity: Python returns the grid's own square object. The model returns the equal value, stated as `IsCellOf`.
- `grid_string_labels(prv=None)`: `None` is falsy in Python and renders like `False`. The model takes a `bool`.
- Labels are typed `Optional[str]` and modelled as optional strings. Any other truthy object reaching `str.join` raises `TypeError`, and that path is not modelled.
- `test_create_square` passes a `label=` keyword that the current `Square` constructor does not accept, so it says nothing about this code.
- Neighbours.SurroundingIsOrderedNeighbourhood: stated only for grids at least `GRID_SIZE` wide. On smaller grids the query may fail with `IndexError`; when it succeeds there, only the bounds of `SurroundingSquares` are stated.
- Neighbours.ReticleIsOrderedRing: stated only for grids at least `GRID_SIZE` wide, for the same reason.
- Labels.RenderSingleGlyphGrid: states the layout only when every shown label is a single character, which covers every absent, empty or one-glyph label. Longer labels follow the same `Join` definition, but their character offsets are not characterised.

=== FILE: config.dfy ===
/** The board size supplied by the game's configuration module.

    `fightgrid.config` is not part of this model: its single value is kept
    abstract, so each property proved here holds for every board size
    its lemma's requires allows. */
module Config {

  type Positive = n: int | n > 0 witness 1

  /** The configured side length of a board (`cfg.GRID_SIZE`). */
  const GRID_SIZE: Positive
}

=== FILE: direction.dfy ===
/** The closed set of directions used to refer to and move between squares. */
module Directions {

  datatype Direction =
    | Up | Down | Left | Right
    | UpLeft | UpRight | DownLeft | DownRight
    | Flip | NoDirection

  /** `FLIP` and `NONE` carry no spatial offset. */
  predicate IsSentinel(d: Direction) {
    d == Flip || d == NoDirection
  }

  predicate IsOrthogonal(d: Direction) {
    d == Up || d == Down || d == Left || d == Right
  }

  predicate IsDiagonal(d: Direction) {
    d == UpLeft || d == UpRight || d == DownLeft || d == DownRight
  }

  /** The direction pointing the other way; sentinels are their own opposite. */
  function Opposite(d: Direction): (r: Direction)
    ensures IsSentinel(r) <==> IsSentinel(d)
    ensures IsOrthogonal(r) <==> IsOrthogonal(d)
    ensures IsDiagonal(r) <==> IsDiagonal(d)
  {
    match d
    case Up => Down
    case Down => Up
    case Left => Right
    case Right => Left
    case UpLeft => DownRight
    case DownRight => UpLeft
    case UpRight => DownLeft
    case DownLeft => UpRight
    case Flip => Flip
    case NoDirection => NoDirection
  }

  /** Reference compass vector `(dx, dy)` of one step, with y growing
      downwards; sentinels have the zero vector. */
  function UnitStep(d: Direction): (int, int) {
    match d
    case Up => (0, -1)
    case Down => (0, 1)
    case Left => (-1, 0)
    case Right => (1, 0)
    case UpLeft => (-1, -1)
    case UpRight => (1, -1)
    case DownLeft => (-1, 1)
    case DownRight => (1, 1)
    case Flip => (0, 0)
    case NoDirection => (0, 0)
  }
}

=== FILE: grid.dfy ===
/** The board: a square array of squares with bounds-checked projection. */
module Grids {
  import opened Config
  import opened Outcomes
  import opened Directions
  import opened Squares

  /** The backing array `_grid`, indexed `[y][x]`. */
  datatype Grid = Grid(cells: seq<seq<Square>>)

  /** `side_length`: the number of rows of the backing array. */
  function Side(g: Grid): nat {
    |g.cells|
  }

  /** Invariant of every constructed grid: it is square, and the cell at row
      `y`, column `x` stores the coordinates `(x, y)`. */
  predicate WellFormed(g: Grid) {
    && (forall y :: 0 <= y < |g.cells| ==> |g.cells[y]| == |g.cells|)
    && (forall y, x :: 0 <= y < |g.cells| && 0 <= x < |g.cells[y]| ==>
          g.cells[y][x].x == x && g.cells[y][x].y == y)
  }

  /** Indexing `_grid[y][x]` succeeds (negative indices are not modelled). */
  predicate InArray(g: Grid, x: int, y: int) {
    0 <= y < |g.cells| && 0 <= x < |g.cells[y]|
  }

  /** `c` is the grid's own cell at `c`'s coordinates. */
  predicate IsCellOf(g: Grid, c: Square) {
    InArray(g, c.x, c.y) && g.cells[c.y][c.x] == c
  }

  /** Grid construction: `side_length` rows of `side_length` squares, each
      carrying its own coordinates and the shared default labels. A negative
      side length gives an empty grid, as `range` does. */
  function NewGrid(sideLength: int, defPub: Option<string>, defPrv: Option<string>): (g: Grid)
    ensures Side(g) == if sideLength < 0 then 0 else sideLength
    ensures WellFormed(g)
    ensures forall y, x :: 0 <= y < Side(g) && 0 <= x < Side(g) ==>
      g.cells[y][x] == NewSquare(x, y, defPub, defPrv, None)
  {
    var n := if sideLength < 0 then 0 else sideLength;
    Grid(seq(n, y => seq(n, x => NewSquare(x, y, defPub, defPrv, None))))
  }

  /** Unchecked lookup of the canonical square matching a probe. */
  function GetSquare(g: Grid, sq: Square): (r: Square)
    requires InArray(g, sq.x, sq.y)
    ensures WellFormed(g) ==> SquareEq(r, sq) && IsCellOf(g, r)
  {
    g.cells[sq.y][sq.x]
  }

  /** Unchecked lookup by coordinates. */
  function GetSquareXY(g: Grid, x: int, y: int): (r: Square)
    requires InArray(g, x, y)
    ensures WellFormed(g) ==> r.x == x && r.y == y && IsCellOf(g, r)
  {
    g.cells[y][x]
  }

  /** The bounds check, made against the configured size `GRID_SIZE` rather
      than the grid's own side length. */
  predicate SquareValid(sq: Square) {
    if sq.x < 0 || GRID_SIZE <= sq.x then false
    else if sq.y < 0 || GRID_SIZE <= sq.y then false
    else true
  }

  /** The probe square that `projected_from` builds before its bounds check;
      sentinel directions build none. `DOWN_LEFT` and `DOWN_RIGHT` move one
      column whatever the distance. */
  function Target(sq: Square, d: Direction, dist: int): Option<Square> {
    match d
    case Up => Some(Probe(sq.x, sq.y - dist))
    case UpLeft => Some(Probe(sq.x - dist, sq.y - dist))
    case UpRight => Some(Probe(sq.x + dist, sq.y - dist))
    case Down => Some(Probe(sq.x, sq.y + dist))
    case DownLeft => Some(Probe(sq.x - 1, sq.y + dist))
    case DownRight => Some(Probe(sq.x + 1, sq.y + dist))
    case Left => Some(Probe(sq.x - dist, sq.y))
    case Right => Some(Probe(sq.x + dist, sq.y))
    case Flip => None
    case NoDirection => None
  }

  /** The square `dist` steps from `sq` in direction `d`: absent for a
      sentinel direction or an out-of-bounds target, otherwise the grid's
      own cell there. A grid smaller than `GRID_SIZE` can fail to index a
      target that passed the bounds check. */
  function ProjectedFrom(g: Grid, sq: Square, d: Direction, dist: int): (r: Result<Option<Square>>)
    ensures IsSentinel(d) ==> r == Ok(None)
    ensures WellFormed(g) && GRID_SIZE <= Side(g) ==> r.Ok?
    ensures r.Ok? && r.value.Some? && WellFormed(g) ==>
      && Target(sq, d, dist).Some?
      && SquareEq(r.value.value, Target(sq, d, dist).value)
      && SquareValid(r.value.value)
      && IsCellOf(g, r.value.value)
  {
    match Target(sq, d, dist)
    case None => Ok(None)
    case Some(p) =>
      if !SquareValid(p) then Ok(None)
      else if InArray(g, p.x, p.y) then Ok(Some(GetSquare(g, p)))
      else Err(IndexError)
  }

  /** Projection yields absence exactly for a sentinel direction or a target
      that fails the bounds check, and fails only when a target that passed
      the check lies outside the backing array. */
  lemma ProjectionOutcomes(g: Grid, sq: Square, d: Direction, dist: int)
    ensures ProjectedFrom(g, sq, d, dist) == Ok(None) <==>
      IsSentinel(d) || !SquareValid(Target(sq, d, dist).value)
    ensures ProjectedFrom(g, sq, d, dist).Err? <==>
      !IsSentinel(d) && SquareValid(Target(sq, d, dist).value)
      && !InArray(g, Target(sq, d, dist).value.x, Target(sq, d, dist).value.y)
  {
  }

  /** On a grid at least `GRID_SIZE` wide, projecting a compass direction
      yields the grid's own cell at the target when the target is on the
      board, and absence otherwise. */
  lemma ProjectionOnBoard(g: Grid, sq: Square, d: Direction, dist: int)
    requires WellFormed(g) && GRID_SIZE <= Side(g)
    requires !IsSentinel(d)
    ensures var t := Target(sq, d, dist).value;
      && (SquareValid(t) ==> InArray(g, t.x, t.y))
      && ProjectedFrom(g, sq, d, dist) ==
         if SquareValid(t) then Ok(Some(g.cells[t.y][t.x])) else Ok(None)
  {
  }

  /** The bounds check holds exactly inside `[0, GRID_SIZE)` on both axes. */
  lemma SquareValidIff(sq: Square)
    ensures SquareValid(sq) <==> 0 <= sq.x < GRID_SIZE && 0 <= sq.y < GRID_SIZE
  {
  }

  /** The bounds check rejects the four coordinates just outside the board. */
  lemma SquareValidBoundaries(x: int, y: int)
    requires 0 <= x < GRID_SIZE && 0 <= y < GRID_SIZE
    ensures SquareValid(Probe(x, y))
    ensures !SquareValid(Probe(-1, y)) && !SquareValid(Probe(x, -1))
    ensures !SquareValid(Probe(GRID_SIZE, y)) && !SquareValid(Probe(x, GRID_SIZE))
  {
  }

  /** On a constructed grid both lookups return the square built for those
      coordinates, which equals the bare probe. */
  lemma LookupRoundTrip(sideLength: int, defPub: Option<string>, defPrv: Option<string>, x: int, y: int)
    requires 0 <= x < sideLength && 0 <= y < sideLength
    ensures var g := NewGrid(sideLength, defPub, defPrv);
      && InArray(g, x, y)
      && GetSquareXY(g, x, y) == NewSquare(x, y, defPub, defPrv, None)
      && GetSquare(g, Probe(x, y)) == GetSquareXY(g, x, y)
      && SquareEq(GetSquare(g, Probe(x, y)), Probe(x, y))
  {
  }

  /** On a grid at least `GRID_SIZE` wide, every coordinate that passes the
      bounds check names a cell of the array. */
  lemma ValidIsInArray(g: Grid, p: Square)
    requires WellFormed(g) && GRID_SIZE <= Side(g)
    requires SquareValid(p)
    ensures InArray(g, p.x, p.y)
    ensures SquareEq(GetSquare(g, p), p)
  {
  }

  /** Coordinates are the key of a constructed grid: two of its cells are
      equal as squares exactly when they sit at the same position. */
  lemma CellsAreKeyedByCoordinates(g: Grid, x1: int, y1: int, x2: int, y2: int)
    requires WellFormed(g) && InArray(g, x1, y1) && InArray(g, x2, y2)
    ensures SquareEq(g.cells[y1][x1], g.cells[y2][x2]) <==> x1 == x2 && y1 == y2
  {
  }

  /** Projection targets follow the compass vector of the direction scaled by
      the distance, except that `DOWN_LEFT` and `DOWN_RIGHT` scale only the
      row offset. */
  lemma TargetFollowsCompass(sq: Square, d: Direction, dist: int)
    ensures Target(sq, d, dist).None? <==> IsSentinel(d)
    ensures !IsSentinel(d) && d != DownLeft && d != DownRight ==>
      Target(sq, d, dist) == Some(Probe(sq.x + dist * UnitStep(d).0, sq.y + dist * UnitStep(d).1))
    ensures d == DownLeft || d == DownRight ==>
      Target(sq, d, dist) == Some(Probe(sq.x + UnitStep(d).0, sq.y + dist * UnitStep(d).1))
  {
  }

  /** On a grid of side `GRID_SIZE`, from an on-board square whose first
      step lands on the board, projecting an orthogonal direction and then
      back by the same distance returns the grid's cell at the origin. */
  lemma OrthogonalRoundTrip(g: Grid, sq: Square, d: Direction, dist: int)
    requires WellFormed(g) && Side(g) == GRID_SIZE
    requires IsOrthogonal(d)
    requires SquareValid(sq)
    requires ProjectedFrom(g, sq, d, dist).Ok? && ProjectedFrom(g, sq, d, dist).value.Some?
    ensures InArray(g, sq.x, sq.y)
    ensures ProjectedFrom(g, ProjectedFrom(g, sq, d, dist).value.value, Opposite(d), dist)
      == Ok(Some(GetSquare(g, sq)))
  {
  }

  /** Because `DOWN_LEFT` and `DOWN_RIGHT` ignore the distance on the column
      axis, on a grid of side `GRID_SIZE` and from an on-board square whose
      first diagonal step lands on the board, projecting a diagonal and then
      its opposite returns to the origin exactly when the distance is 1. */
  lemma DiagonalRoundTripIffUnit(g: Grid, sq: Square, d: Direction, dist: int)
    requires WellFormed(g) && Side(g) == GRID_SIZE
    requires IsDiagonal(d)
    requires SquareValid(sq)
    requires ProjectedFrom(g, sq, d, dist).Ok? && ProjectedFrom(g, sq, d, dist).value.Some?
    ensures InArray(g, sq.x, sq.y)
    ensures (ProjectedFrom(g, ProjectedFrom(g, sq, d, dist).value.value, Opposite(d), dist)
             == Ok(Some(GetSquare(g, sq)))) <==> dist == 1
  {
  }

  /** On a grid of side `GRID_SIZE`, walking the border RIGHT, DOWN, LEFT,
      UP by `GRID_SIZE - 1` from the corner `(0, 0)` visits the other three
      corners and comes back. */
  lemma ClosedLoopFromCorner(g: Grid)
    requires WellFormed(g) && Side(g) == GRID_SIZE
    ensures var n := GRID_SIZE - 1;
      && ProjectedFrom(g, g.cells[0][0], Right, n) == Ok(Some(g.cells[0][n]))
      && ProjectedFrom(g, g.cells[0][n], Down, n) == Ok(Some(g.cells[n][n]))
      && ProjectedFrom(g, g.cells[n][n], Left, n) == Ok(Some(g.cells[n][0]))
      && ProjectedFrom(g, g.cells[n][0], Up, n) == Ok(Some(g.cells[0][0]))
  {
  }

  /** Projecting `DOWN` by the board size from any square on or below the top
      row leaves the board, on any grid. */
  lemma DownBySizeIsAbsent(g: Grid, sq: Square)
    requires sq.y >= 0
    ensures ProjectedFrom(g, sq, Down, GRID_SIZE) == Ok(None)
  {
  }

  /** A grid built at the default side length `GRID_SIZE` never fails a
      projection. */
  lemma DefaultGridNeverFails(defPub: Option<string>, defPrv: Option<string>, sq: Square, d: Direction, dist: int)
    ensures ProjectedFrom(NewGrid(GRID_SIZE, defPub, defPrv), sq, d, dist).Ok?
  {
  }

  /** Because the bounds check ignores the grid's own side length, a grid
      smaller than `GRID_SIZE` fails when a projection leaves its array but
      not the configured board. */
  lemma SmallGridProjectionFails(defPub: Option<string>, defPrv: Option<string>)
    requires GRID_SIZE >= 2
    ensures ProjectedFrom(NewGrid(1, defPub, defPrv), Probe(0, 0), Right, 1) == Err(IndexError)
  {
  }
}

=== FILE: labels.dfy ===
/** Text rendering of a grid's labels, one line per row. */
module Labels {
  import opened Outcomes
  import opened Squares
  import opened Grids

  /** `sep.join(parts)`: the parts in order with `sep` between neighbours. */
  function Join(sep: string, parts: seq<string>): string {
    if |parts| == 0 then ""
    else if |parts| == 1 then parts[0]
    else parts[0] + sep + Join(sep, parts[1..])
  }

  /** The glyph shown for a square: its private label when `prv` holds, its
      public one otherwise, and a blank when that label is absent or empty. */
  function ShownLabel(s: Square, prv: bool): (r: string)
    ensures r != ""
    ensures var chosen := if prv then s.prvLabel else s.pubLabel;
      chosen.Some? && chosen.value != "" ==> r == chosen.value
    ensures var chosen := if prv then s.prvLabel else s.pubLabel;
      chosen.None? || chosen.value == "" ==> r == " "
  {
    var chosen := if prv then s.prvLabel else s.pubLabel;
    if chosen.None? || chosen.value == "" then " " else chosen.value
  }

  /** The glyphs of one row, in column order. */
  function RowGlyphs(row: seq<Square>, prv: bool): seq<string> {
    seq(|row|, i requires 0 <= i < |row| => ShownLabel(row[i], prv))
  }

  /** One row: the shown labels separated by single spaces. */
  function RowString(row: seq<Square>, prv: bool): string {
    Join(" ", RowGlyphs(row, prv))
  }

  /** The rendered rows, top to bottom. */
  function GridRows(g: Grid, prv: bool): seq<string> {
    seq(|g.cells|, y requires 0 <= y < |g.cells| => RowString(g.cells[y], prv))
  }

  /** `grid_string_labels`: the rows joined by newlines. */
  function GridStringLabels(g: Grid, prv: bool): string {
    Join("\n", GridRows(g, prv))
  }

  /** Where part `i` starts when every part is `k` characters long and parts
      are separated by one character: `i * (k + 1)` (`OffsetIsLinear`),
      written recursively so that the inductive proofs over `Join` can
      follow it one part at a time. */
  function Offset(i: nat, k: nat): nat {
    if i == 0 then 0 else Offset(i - 1, k) + k + 1
  }

  /** Part `i` starts after `i` parts and `i` separators. */
  lemma {:induction false} OffsetIsLinear(i: nat, k: nat)
    ensures Offset(i, k) == i * (k + 1)
  {
    if i > 0 {
      OffsetIsLinear(i - 1, k);
    }
  }

  /** Joining `p` parts of equal length `k` with a one-character separator
      gives `p` blocks of `k + 1` characters, less the final separator. */
  lemma {:induction false} JoinUniformLength(sep: string, parts: seq<string>, k: nat)
    requires |sep| == 1
    requires |parts| >= 1
    requires forall i :: 0 <= i < |parts| ==> |parts[i]| == k
    ensures |Join(sep, parts)| == Offset(|parts| - 1, k) + k
  {
    if |parts| > 1 {
      JoinUniformLength(sep, parts[1..], k);
    }
  }

  /** In such a join, character `j` of block `i` (starting at `Offset(i, k)`)
      is character `j` of part `i`, or the separator when `j == k`. */
  lemma {:induction false} JoinBlockAt(sep: string, parts: seq<string>, k: nat, i: nat, j: nat)
    requires |sep| == 1
    requires forall i :: 0 <= i < |parts| ==> |parts[i]| == k
    requires i < |parts| && j <= k
    requires j == k ==> i < |parts| - 1
    ensures Offset(i, k) + j < |Join(sep, parts)|
    ensures Join(sep, parts)[Offset(i, k) + j] == if j < k then parts[i][j] else sep[0]
  {
    var out := Join(sep, parts);
    if |parts| > 1 {
      var rest := parts[1..];
      assert out == parts[0] + sep + Join(sep, rest);
      assert |parts[0]| == k;
      if i > 0 {
        JoinBlockAt(sep, rest, k, i - 1, j);
        assert rest[i - 1] == parts[i];
      }
    }
  }

  /** Joining equal-length parts of `k` characters with a one-character
      separator puts character `j` of part `i` at offset `i * (k + 1) + j`,
      and the separator right after each part but the last. */
  lemma JoinUniformAt(sep: string, parts: seq<string>, k: nat, i: nat, j: nat)
    requires |sep| == 1
    requires forall i :: 0 <= i < |parts| ==> |parts[i]| == k
    requires i < |parts| && j <= k
    requires j == k ==> i < |parts| - 1
    ensures i * (k + 1) + j < |Join(sep, parts)|
    ensures Join(sep, parts)[i * (k + 1) + j] == if j < k then parts[i][j] else sep[0]
  {
    OffsetIsLinear(i, k);
    JoinBlockAt(sep, parts, k, i, j);
  }

  /** When every glyph of a row is one character, the row is `2n - 1`
      characters long: glyph `x` at offset `2x` and a single space at every
      odd offset. */
  lemma RenderSingleGlyphRow(row: seq<Square>, prv: bool)
    requires |row| >= 1
    requires forall x :: 0 <= x < |row| ==> |ShownLabel(row[x], prv)| == 1
    ensures |RowString(row, prv)| == 2 * |row| - 1
    ensures forall c :: 0 <= c < |RowString(row, prv)| ==>
      RowString(row, prv)[c] == if c % 2 == 1 then ' ' else ShownLabel(row[c / 2], prv)[0]
  {
    var glyphs := RowGlyphs(row, prv);
    var out := RowString(row, prv);
    assert forall x :: 0 <= x < |glyphs| ==> |glyphs[x]| == 1;
    JoinUniformLength(" ", glyphs, 1);
    OffsetIsLinear(|row| - 1, 1);
    forall c | 0 <= c < |out|
      ensures out[c] == if c % 2 == 1 then ' ' else ShownLabel(row[c / 2], prv)[0]
    {
      JoinUniformAt(" ", glyphs, 1, c / 2, c % 2);
    }
  }

  /** Position of column `c` of line `y` in the rendering of a grid of side
      `n` whose lines are `2n - 1` characters plus a newline: the block
      offset `i * (k + 1) + j` with `k = 2n - 1`, named so that statements
      quantified over `y` and `c` have a term to trigger on. */
  function CharPos(y: nat, c: nat, n: nat): nat {
    y * (2 * n) + c
  }

  /** Every line of a grid whose shown labels are single glyphs is `2n - 1`
      characters long. */
  lemma SingleGlyphLineLengths(g: Grid, prv: bool)
    requires WellFormed(g) && Side(g) >= 1
    requires forall y, x :: 0 <= y < Side(g) && 0 <= x < Side(g) ==>
      |ShownLabel(g.cells[y][x], prv)| == 1
    ensures forall y :: 0 <= y < Side(g) ==> |GridRows(g, prv)[y]| == 2 * Side(g) - 1
  {
    forall y | 0 <= y < Side(g) ensures |GridRows(g, prv)[y]| == 2 * Side(g) - 1 {
      RenderSingleGlyphRow(g.cells[y], prv);
    }
  }

  /** Character `c` of line `y` of a grid whose shown labels are single
      glyphs: a newline after the line's `2n - 1` characters, a space at odd
      columns, the glyph of square `c / 2` at even ones. */
  lemma RenderSingleGlyphGridAt(g: Grid, prv: bool, y: nat, c: nat)
    requires WellFormed(g) && Side(g) >= 1
    requires forall y, x :: 0 <= y < Side(g) && 0 <= x < Side(g) ==>
      |ShownLabel(g.cells[y][x], prv)| == 1
    requires y < Side(g) && c < 2 * Side(g)
    requires c == 2 * Side(g) - 1 ==> y < Side(g) - 1
    ensures CharPos(y, c, Side(g)) < |GridStringLabels(g, prv)|
    ensures GridStringLabels(g, prv)[CharPos(y, c, Side(g))] ==
      if c == 2 * Side(g) - 1 then '\n'
      else if c % 2 == 1 then ' '
      else ShownLabel(g.cells[y][c / 2], prv)[0]
  {
    var n := Side(g);
    var rows := GridRows(g, prv);
    SingleGlyphLineLengths(g, prv);
    JoinBlockAt("\n", rows, 2 * n - 1, y, c);
    OffsetIsLinear(y, 2 * n - 1);
    assert Offset(y, 2 * n - 1) + c == CharPos(y, c, n);
    if c < 2 * n - 1 {
      RenderSingleGlyphRow(g.cells[y], prv);
    }
  }

  /** A grid of side `n` whose shown labels are single glyphs renders to
      `n` lines of `2n - 1` characters and `n - 1` newlines. */
  lemma RenderSingleGlyphGridLength(g: Grid, prv: bool)
    requires WellFormed(g) && Side(g) >= 1
    requires forall y, x :: 0 <= y < Side(g) && 0 <= x < Side(g) ==>
      |ShownLabel(g.cells[y][x], prv)| == 1
    ensures |GridStringLabels(g, prv)| == Side(g) * (2 * Side(g)) - 1
  {
    var n := Side(g);
    var rows := GridRows(g, prv);
    SingleGlyphLineLengths(g, prv);
    JoinUniformLength("\n", rows, 2 * n - 1);
    OffsetIsLinear(n - 1, 2 * n - 1);
  }

  /** When every shown label is a single glyph, a grid of side `n` renders as
      `n` lines of `2n - 1` characters separated by newlines: at column `c`
      of line `y` stands a newline when `c == 2n - 1`, a space when `c` is
      odd, and otherwise the glyph of the square in row `y`, column `c / 2`. */
  lemma RenderSingleGlyphGrid(g: Grid, prv: bool)
    requires WellFormed(g) && Side(g) >= 1
    requires forall y, x :: 0 <= y < Side(g) && 0 <= x < Side(g) ==>
      |ShownLabel(g.cells[y][x], prv)| == 1
    ensures |GridStringLabels(g, prv)| == Side(g) * (2 * Side(g)) - 1
    ensures forall y, c :: 0 <= y < Side(g) && 0 <= c < 2 * Side(g) && (c == 2 * Side(g) - 1 ==> y < Side(g) - 1) ==>
      && CharPos(y, c, Side(g)) < |GridStringLabels(g, prv)|
      && GridStringLabels(g, prv)[CharPos(y, c, Side(g))] ==
           if c == 2 * Side(g) - 1 then '\n'
           else if c % 2 == 1 then ' '
           else ShownLabel(g.cells[y][c / 2], prv)[0]
  {
    RenderSingleGlyphGridLength(g, prv);
    var n := Side(g);
    var out := GridStringLabels(g, prv);
    forall y, c | 0 <= y < n && 0 <= c < 2 * n && (c == 2 * n - 1 ==> y < n - 1)
      ensures CharPos(y, c, n) < |out|
      ensures out[CharPos(y, c, n)] ==
        if c == 2 * n - 1 then '\n'
        else if c % 2 == 1 then ' '
        else ShownLabel(g.cells[y][c / 2], prv)[0]
    {
      RenderSingleGlyphGridAt(g, prv, y, c);
    }
  }

  /** Joining three parts puts the separator between each neighbouring pair. */
  lemma JoinThree(sep: string, a: string, b: string, c: string)
    ensures Join(sep, [a, b, c]) == a + sep + b + sep + c
  {
    assert [a, b, c][1..] == [b, c];
    assert [b, c][1..] == [c];
    assert Join(sep, [b, c]) == b + sep + c;
    assert Join(sep, [a, b, c]) == a + sep + (b + sep + c);
  }

  /** A 3 by 3 board with default public label "w" shows three lines of
      "w w w", and with default private label "x" its private view shows
      three lines of "x x x". */
  lemma ThreeByThreeDefaultLabels(defPrv: Option<string>, defPub: Option<string>)
    ensures GridStringLabels(NewGrid(3, Some("w"), defPrv), false) == "w w w\nw w w\nw w w"
    ensures GridStringLabels(NewGrid(3, defPub, Some("x")), true) == "x x x\nx x x\nx x x"
  {
    JoinThree(" ", "w", "w", "w");
    JoinThree(" ", "x", "x", "x");
    JoinThree("\n", "w w w", "w w w", "w w w");
    JoinThree("\n", "x x x", "x x x", "x x x");
    var g := NewGrid(3, Some("w"), defPrv);
    forall y | 0 <= y < 3 ensures RowString(g.cells[y], false) == "w w w" {
      assert RowGlyphs(g.cells[y], false) == ["w", "w", "w"];
    }
    assert GridRows(g, false) == ["w w w", "w w w", "w w w"];
    var h := NewGrid(3, defPub, Some("x"));
    forall y | 0 <= y < 3 ensures RowString(h.cells[y], true) == "x x x" {
      assert RowGlyphs(h.cells[y], true) == ["x", "x", "x"];
    }
    assert GridRows(h, true) == ["x x x", "x x x", "x x x"];
  }
}

=== FILE: neighbours.dfy ===
/** Neighbour queries built on projection: the four orthogonal neighbours
    and the eight-square reticle around a square. */
module Neighbours {
  import opened Config
  import opened Outcomes
  import opened Directions
  import opened Squares
  import opened Grids

  /** The directions `surrounding_squares` projects, in its order. */
  const OrthogonalOrder: seq<Direction> := [Up, Left, Right, Down]

  /** The directions `reticle_squares` projects, in its order. */
  const ReticleOrder: seq<Direction> :=
    [UpLeft, Up, UpRight, Left, Right, DownLeft, Down, DownRight]

  /** The list of one-step projections from `sq` in each of `ds`. */
  function Projections(g: Grid, sq: Square, ds: seq<Direction>): seq<Result<Option<Square>>> {
    seq(|ds|, i requires 0 <= i < |ds| => ProjectedFrom(g, sq, ds[i], 1))
  }

  /** `list(filter(None, results))` over results evaluated left to right: a
      failure of any projection fails the whole query, and otherwise the
      absent entries are dropped. Every square is truthy, so only absences
      are filtered out. */
  function Collect(rs: seq<Result<Option<Square>>>): (r: Result<seq<Square>>)
    ensures r.Ok? <==> forall i :: 0 <= i < |rs| ==> rs[i].Ok?
    ensures r.Ok? ==> |r.value| <= |rs|
    ensures r.Ok? ==> forall c :: c in r.value <==> Ok(Some(c)) in rs
  {
    if |rs| == 0 then Ok([])
    else if rs[0].Err? then Err(rs[0].error)
    else
      match Collect(rs[1..])
      case Err(e) => Err(e)
      case Ok(tail) => Ok(if rs[0].value.Some? then [rs[0].value.value] + tail else tail)
  }

  /** The up, left, right and down neighbours that exist, in that order. */
  function SurroundingSquares(g: Grid, sq: Square): (r: Result<seq<Square>>)
    ensures WellFormed(g) && GRID_SIZE <= Side(g) ==> r.Ok?
    ensures r.Ok? ==> |r.value| <= 4
  {
    Collect(Projections(g, sq, OrthogonalOrder))
  }

  /** All eight surrounding squares that exist, from up-left to down-right. */
  function ReticleSquares(g: Grid, sq: Square): (r: Result<seq<Square>>)
    ensures WellFormed(g) && GRID_SIZE <= Side(g) ==> r.Ok?
    ensures r.Ok? ==> |r.value| <= 8
  {
    Collect(Projections(g, sq, ReticleOrder))
  }

  /** The present entries of `rs` appear in strictly increasing row-major order. */
  predicate PresentInOrder(rs: seq<Result<Option<Square>>>) {
    forall i, j ::
      0 <= i < j < |rs| && rs[i].Ok? && rs[i].value.Some? && rs[j].Ok? && rs[j].value.Some? ==>
        RowMajorLess(rs[i].value.value, rs[j].value.value)
  }

  /** `c` sits at the one-step target of one of the directions `ds`. */
  predicate AimedAt(sq: Square, ds: seq<Direction>, c: Square) {
    exists i :: 0 <= i < |ds| && Target(sq, ds[i], 1).Some? && SquareEq(c, Target(sq, ds[i], 1).value)
  }

  /** `a` differs from `b` by exactly one on exactly one axis. */
  predicate Adjacent4(a: Square, b: Square) {
    || (a.x == b.x && (a.y == b.y - 1 || a.y == b.y + 1))
    || (a.y == b.y && (a.x == b.x - 1 || a.x == b.x + 1))
  }

  /** `a` is one of the eight squares of the ring around `b`. */
  predicate Adjacent8(a: Square, b: Square) {
    -1 <= a.x - b.x <= 1 && -1 <= a.y - b.y <= 1 && !SquareEq(a, b)
  }

  /** Filtering a single result: a present square is kept, an absence is
      dropped, a failure is passed on. */
  lemma CollectSingle(r: Result<Option<Square>>)
    ensures r == Ok(None) ==> Collect([r]) == Ok([])
    ensures r.Ok? && r.value.Some? ==> Collect([r]) == Ok([r.value.value])
    ensures r.Err? ==> Collect([r]) == Err(r.error)
  {
    assert [r][1..] == [];
    if r.Ok? && r.value.Some? {
      assert [r.value.value] + [] == [r.value.value];
    }
  }

  /** Filtering works left to right over a concatenation: the first failure
      wins, and otherwise the kept squares of `a` come before those of `b`,
      each in their original order. */
  lemma {:induction false} CollectAppend(a: seq<Result<Option<Square>>>, b: seq<Result<Option<Square>>>)
    ensures Collect(a).Err? ==> Collect(a + b) == Collect(a)
    ensures Collect(a).Ok? && Collect(b).Err? ==> Collect(a + b) == Collect(b)
    ensures Collect(a).Ok? && Collect(b).Ok? ==>
      Collect(a + b) == Ok(Collect(a).value + Collect(b).value)
  {
    if |a| == 0 {
      assert a + b == b;
      assert Collect(a) == Ok([]);
      if Collect(b).Ok? {
        assert [] + Collect(b).value == Collect(b).value;
      }
    } else {
      assert (a + b)[0] == a[0];
      assert (a + b)[1..] == a[1..] + b;
      CollectAppend(a[1..], b);
      if a[0].Ok? && Collect(a[1..]).Ok? && Collect(b).Ok? && a[0].value.Some? {
        var h := a[0].value.value;
        assert [h] + (Collect(a[1..]).value + Collect(b).value)
            == ([h] + Collect(a[1..]).value) + Collect(b).value;
      }
    }
  }

  /** Filtering entries whose present squares are already in strict row-major
      order gives a strictly row-major sorted list. */
  lemma {:induction false} CollectKeepsOrder(rs: seq<Result<Option<Square>>>)
    requires PresentInOrder(rs)
    requires Collect(rs).Ok?
    ensures SortedRowMajor(Collect(rs).value)
  {
    if |rs| > 0 {
      var rest := rs[1..];
      assert PresentInOrder(rest) by {
        forall i, j | 0 <= i < j < |rest| && rest[i].Ok? && rest[i].value.Some? && rest[j].Ok? && rest[j].value.Some?
          ensures RowMajorLess(rest[i].value.value, rest[j].value.value)
        {
          assert rest[i] == rs[i + 1] && rest[j] == rs[j + 1];
        }
      }
      CollectKeepsOrder(rest);
      var tail := Collect(rest).value;
      if rs[0].value.Some? {
        var h := rs[0].value.value;
        forall c | c in tail ensures RowMajorLess(h, c) {
          assert Ok(Some(c)) in rest;
          var j :| 0 <= j < |rest| && rest[j] == Ok(Some(c));
          assert rs[j + 1] == Ok(Some(c));
        }
        var r := [h] + tail;
        assert Collect(rs).value == r;
        forall i, j | 0 <= i < j < |r| ensures RowMajorLess(r[i], r[j]) {
          if i == 0 {
            assert r[j] == tail[j - 1];
          } else {
            assert r[i] == tail[i - 1] && r[j] == tail[j - 1];
          }
        }
      }
    }
  }

  /** On a grid at least `GRID_SIZE` wide, collecting the projections in
      compass directions `ds` gives exactly the board's cells at their
      targets. */
  lemma CollectedProjections(g: Grid, sq: Square, ds: seq<Direction>)
    requires WellFormed(g) && GRID_SIZE <= Side(g)
    requires forall i :: 0 <= i < |ds| ==> !IsSentinel(ds[i])
    ensures Collect(Projections(g, sq, ds)).Ok?
    ensures forall c :: c in Collect(Projections(g, sq, ds)).value <==>
      SquareValid(c) && IsCellOf(g, c) && AimedAt(sq, ds, c)
  {
    var rs := Projections(g, sq, ds);
    var r := Collect(rs).value;
    forall c ensures c in r <==> SquareValid(c) && IsCellOf(g, c) && AimedAt(sq, ds, c) {
      if c in r {
        var i :| 0 <= i < |rs| && rs[i] == Ok(Some(c));
        ProjectionOnBoard(g, sq, ds[i], 1);
      }
      if SquareValid(c) && IsCellOf(g, c) && AimedAt(sq, ds, c) {
        var i :| 0 <= i < |ds| && Target(sq, ds[i], 1).Some? && SquareEq(c, Target(sq, ds[i], 1).value);
        ProjectionOnBoard(g, sq, ds[i], 1);
        assert rs[i] == Ok(Some(c));
      }
    }
  }

  /** When the targets of `ds` are in row-major order, so is the collected
      list. */
  lemma CollectedProjectionsSorted(g: Grid, sq: Square, ds: seq<Direction>)
    requires WellFormed(g) && GRID_SIZE <= Side(g)
    requires forall i :: 0 <= i < |ds| ==> !IsSentinel(ds[i])
    requires forall i, j :: 0 <= i < j < |ds| ==>
      && Target(sq, ds[i], 1).Some? && Target(sq, ds[j], 1).Some?
      && RowMajorLess(Target(sq, ds[i], 1).value, Target(sq, ds[j], 1).value)
    ensures Collect(Projections(g, sq, ds)).Ok?
    ensures SortedRowMajor(Collect(Projections(g, sq, ds)).value)
  {
    var rs := Projections(g, sq, ds);
    forall i | 0 <= i < |rs| && rs[i].Ok? && rs[i].value.Some?
      ensures SquareEq(rs[i].value.value, Target(sq, ds[i], 1).value)
    {
      ProjectionOnBoard(g, sq, ds[i], 1);
    }
    CollectKeepsOrder(rs);
  }

  /** The orthogonal targets are the squares adjacent on one axis, and they
      come in row-major order. */
  lemma OrthogonalTargets(sq: Square)
    ensures forall i :: 0 <= i < |OrthogonalOrder| ==> !IsSentinel(OrthogonalOrder[i])
    ensures forall i, j :: 0 <= i < j < |OrthogonalOrder| ==>
      RowMajorLess(Target(sq, OrthogonalOrder[i], 1).value, Target(sq, OrthogonalOrder[j], 1).value)
    ensures forall c :: AimedAt(sq, OrthogonalOrder, c) <==> Adjacent4(c, sq)
  {
    forall c | Adjacent4(c, sq) ensures AimedAt(sq, OrthogonalOrder, c) {
      if c.y == sq.y - 1 {
        assert SquareEq(c, Target(sq, OrthogonalOrder[0], 1).value);
      } else if c.x == sq.x - 1 {
        assert SquareEq(c, Target(sq, OrthogonalOrder[1], 1).value);
      } else if c.x == sq.x + 1 {
        assert SquareEq(c, Target(sq, OrthogonalOrder[2], 1).value);
      } else {
        assert SquareEq(c, Target(sq, OrthogonalOrder[3], 1).value);
      }
    }
  }

  /** The reticle targets are the eight squares of the ring, and they come in
      row-major order. */
  lemma ReticleTargets(sq: Square)
    ensures forall i :: 0 <= i < |ReticleOrder| ==> !IsSentinel(ReticleOrder[i])
    ensures forall i, j :: 0 <= i < j < |ReticleOrder| ==>
      RowMajorLess(Target(sq, ReticleOrder[i], 1).value, Target(sq, ReticleOrder[j], 1).value)
    ensures forall c :: AimedAt(sq, ReticleOrder, c) <==> Adjacent8(c, sq)
  {
    forall c | Adjacent8(c, sq) ensures AimedAt(sq, ReticleOrder, c) {
      var k :=
        if c.y == sq.y - 1 then c.x - sq.x + 1
        else if c.y == sq.y then (if c.x < sq.x then 3 else 4)
        else c.x - sq.x + 6;
      assert SquareEq(c, Target(sq, ReticleOrder[k], 1).value);
    }
  }

  /** On a grid at least `GRID_SIZE` wide, the orthogonal neighbours are
      exactly the board's cells adjacent to `sq`, listed in row-major order. */
  lemma SurroundingIsOrderedNeighbourhood(g: Grid, sq: Square)
    requires WellFormed(g) && GRID_SIZE <= Side(g)
    ensures SurroundingSquares(g, sq).Ok?
    ensures SortedRowMajor(SurroundingSquares(g, sq).value)
    ensures forall c :: c in SurroundingSquares(g, sq).value <==>
      SquareValid(c) && IsCellOf(g, c) && Adjacent4(c, sq)
  {
    OrthogonalTargets(sq);
    CollectedProjections(g, sq, OrthogonalOrder);
    CollectedProjectionsSorted(g, sq, OrthogonalOrder);
  }

  /** On a grid at least `GRID_SIZE` wide, the reticle is exactly the board's
      cells in the ring around `sq`, listed in row-major order; in particular
      it never contains `sq` itself. */
  lemma ReticleIsOrderedRing(g: Grid, sq: Square)
    requires WellFormed(g) && GRID_SIZE <= Side(g)
    ensures ReticleSquares(g, sq).Ok?
    ensures SortedRowMajor(ReticleSquares(g, sq).value)
    ensures forall c :: c in ReticleSquares(g, sq).value <==>
      SquareValid(c) && IsCellOf(g, c) && Adjacent8(c, sq)
    ensures forall c :: c in ReticleSquares(g, sq).value ==> !SquareEq(c, sq)
  {
    ReticleTargets(sq);
    CollectedProjections(g, sq, ReticleOrder);
    CollectedProjectionsSorted(g, sq, ReticleOrder);
  }

  /** The orthogonal query is pinned by its reference description: on a grid
      at least `GRID_SIZE` wide it returns the one row-major sorted list of
      the board's cells adjacent to `sq`. */
  lemma SurroundingIsUnique(g: Grid, sq: Square, s: seq<Square>)
    requires WellFormed(g) && GRID_SIZE <= Side(g)
    requires SortedRowMajor(s)
    requires forall c :: c in s <==> SquareValid(c) && IsCellOf(g, c) && Adjacent4(c, sq)
    ensures SurroundingSquares(g, sq) == Ok(s)
  {
    SurroundingIsOrderedNeighbourhood(g, sq);
    SortedByMembershipIsUnique(SurroundingSquares(g, sq).value, s);
  }

  /** The reticle is pinned by its reference description: on a grid at least
      `GRID_SIZE` wide it returns the one row-major sorted list of the board's
      cells in the ring around `sq`. */
  lemma ReticleIsUnique(g: Grid, sq: Square, s: seq<Square>)
    requires WellFormed(g) && GRID_SIZE <= Side(g)
    requires SortedRowMajor(s)
    requires forall c :: c in s <==> SquareValid(c) && IsCellOf(g, c) && Adjacent8(c, sq)
    ensures ReticleSquares(g, sq) == Ok(s)
  {
    ReticleIsOrderedRing(g, sq);
    SortedByMembershipIsUnique(ReticleSquares(g, sq).value, s);
  }

  /** When every projection is present, filtering keeps them all. */
  lemma {:induction false} CollectAllPresent(rs: seq<Result<Option<Square>>>, cs: seq<Square>)
    requires |rs| == |cs|
    requires forall i :: 0 <= i < |rs| ==> rs[i] == Ok(Some(cs[i]))
    ensures Collect(rs) == Ok(cs)
  {
    if |rs| > 0 {
      CollectAllPresent(rs[1..], cs[1..]);
      assert cs == [cs[0]] + cs[1..];
    }
  }

  /** The centre of a 3 by 3 board has four orthogonal neighbours, in the
      fixed enumeration order, whatever the configured size. */
  lemma CentreOfThreeByThreeSurrounding(defPub: Option<string>, defPrv: Option<string>)
    requires GRID_SIZE >= 3
    ensures SurroundingSquares(NewGrid(3, defPub, defPrv), Probe(1, 1)) == Ok([
      NewSquare(1, 0, defPub, defPrv, None), NewSquare(0, 1, defPub, defPrv, None),
      NewSquare(2, 1, defPub, defPrv, None), NewSquare(1, 2, defPub, defPrv, None)])
  {
    var g := NewGrid(3, defPub, defPrv);
    var sq := Probe(1, 1);
    var expected := [g.cells[0][1], g.cells[1][0], g.cells[1][2], g.cells[2][1]];
    var rs := Projections(g, sq, OrthogonalOrder);
    assert rs[0] == Ok(Some(expected[0]));
    assert rs[1] == Ok(Some(expected[1]));
    assert rs[2] == Ok(Some(expected[2]));
    assert rs[3] == Ok(Some(expected[3]));
    CollectAllPresent(rs, expected);
  }

  /** The centre of a 3 by 3 board has a full ring of eight, in the fixed
      enumeration order, whatever the configured size. */
  lemma CentreOfThreeByThreeReticle(defPub: Option<string>, defPrv: Option<string>)
    requires GRID_SIZE >= 3
    ensures ReticleSquares(NewGrid(3, defPub, defPrv), Probe(1, 1)) == Ok([
      NewSquare(0, 0, defPub, defPrv, None), NewSquare(1, 0, defPub, defPrv, None),
      NewSquare(2, 0, defPub, defPrv, None), NewSquare(0, 1, defPub, defPrv, None),
      NewSquare(2, 1, defPub, defPrv, None), NewSquare(0, 2, defPub, defPrv, None),
      NewSquare(1, 2, defPub, defPrv, None), NewSquare(2, 2, defPub, defPrv, None)])
  {
    var g := NewGrid(3, defPub, defPrv);
    var sq := Probe(1, 1);
    var expected := [g.cells[0][0], g.cells[0][1], g.cells[0][2], g.cells[1][0],
                     g.cells[1][2], g.cells[2][0], g.cells[2][1], g.cells[2][2]];
    var rs := Projections(g, sq, ReticleOrder);
    assert rs[0] == Ok(Some(expected[0]));
    assert rs[1] == Ok(Some(expected[1]));
    assert rs[2] == Ok(Some(expected[2]));
    assert rs[3] == Ok(Some(expected[3]));
    assert rs[4] == Ok(Some(expected[4]));
    assert rs[5] == Ok(Some(expected[5]));
    assert rs[6] == Ok(Some(expected[6]));
    assert rs[7] == Ok(Some(expected[7]));
    CollectAllPresent(rs, expected);
  }
}

=== FILE: outcomes.dfy ===
/** Optional values and the failure that an unchecked lookup can raise. */
module Outcomes {

  /** Python's `Optional[T]`: `None` or a present value. */
  datatype Option<+T> = None | Some(value: T)

  /** The only failure the grid module can raise: indexing its backing
      array outside its bounds. */
  datatype Error = IndexError

  /** Either a value or the failure that interrupted the computation. */
  datatype Result<+T> = Ok(value: T) | Err(error: Error)
}

=== FILE: square.dfy ===
/** One cell of the board: coordinates plus presentation and game state. */
module Squares {
  import opened Outcomes

  /** General state of a square; game logic outside this model drives it. */
  datatype SqState = Empty | Hidden | Hit | Miss | Sunk

  datatype Square = Square(
    x: int,
    y: int,
    pubLabel: Option<string>,
    prvLabel: Option<string>,
    highlight: Option<string>,
    state: SqState)

  /** The square constructor: any coordinates and labels, state `EMPTY`. */
  function NewSquare(x: int, y: int, pubLabel: Option<string>, prvLabel: Option<string>,
                     highlight: Option<string>): Square
  {
    Square(x, y, pubLabel, prvLabel, highlight, Empty)
  }

  /** A bare lookup key, `Square(x, y)` with every optional field left out. */
  function Probe(x: int, y: int): Square {
    NewSquare(x, y, None, None, None)
  }

  /** Python-level equality of squares: coordinates only. */
  predicate SquareEq(a: Square, b: Square) {
    a.x == b.x && a.y == b.y
  }

  /** Row-major order: by row first, then by column. */
  predicate RowMajorLess(a: Square, b: Square) {
    a.y < b.y || (a.y == b.y && a.x < b.x)
  }

  predicate SortedRowMajor(s: seq<Square>) {
    forall i, j :: 0 <= i < j < |s| ==> RowMajorLess(s[i], s[j])
  }

  /** Labels, highlight and state never take part in equality: a square
      equals the bare probe at its coordinates and nothing else. */
  lemma EqualityIgnoresMetadata(a: Square, x: int, y: int)
    ensures SquareEq(a, Probe(x, y)) <==> a.x == x && a.y == y
    ensures forall pub, prv, hl, st ::
      SquareEq(a, Square(a.x, a.y, pub, prv, hl, st))
  {
  }

  /** Square equality is an equivalence relation. */
  lemma SquareEqIsEquivalence(a: Square, b: Square, c: Square)
    ensures SquareEq(a, a)
    ensures SquareEq(a, b) ==> SquareEq(b, a)
    ensures SquareEq(a, b) && SquareEq(b, c) ==> SquareEq(a, c)
  {
  }

  /** Row-major order is a strict order whose ties are exactly equal squares. */
  lemma RowMajorIsStrictTotal(a: Square, b: Square, c: Square)
    ensures !RowMajorLess(a, a)
    ensures RowMajorLess(a, b) ==> !RowMajorLess(b, a)
    ensures RowMajorLess(a, b) && RowMajorLess(b, c) ==> RowMajorLess(a, c)
    ensures RowMajorLess(a, b) || RowMajorLess(b, a) || SquareEq(a, b)
  {
  }

  /** A strictly row-major sorted list is fixed by its members: two such
      lists holding the same squares are the same list. */
  lemma {:induction false} SortedByMembershipIsUnique(s: seq<Square>, t: seq<Square>)
    requires SortedRowMajor(s) && SortedRowMajor(t)
    requires forall c :: c in s <==> c in t
    ensures s == t
  {
    if |s| > 0 {
      assert s[0] in t;
    }
    if |t| > 0 {
      assert t[0] in s;
    }
    if |s| > 0 && |t| > 0 {
      var j :| 0 <= j < |t| && t[j] == s[0];
      var i :| 0 <= i < |s| && s[i] == t[0];
      assert j == 0 || RowMajorLess(t[0], s[0]);
      assert i == 0 || RowMajorLess(s[0], t[0]);
      RowMajorIsStrictTotal(s[0], t[0], s[0]);
      var s', t' := s[1..], t[1..];
      assert SortedRowMajor(s') && SortedRowMajor(t');
      forall c ensures c in s' <==> c in t' {
        if c in s' {
          var k :| 0 <= k < |s'| && s'[k] == c;
          assert s[k + 1] == c && RowMajorLess(s[0], s[k + 1]);
          assert c in t;
          var m :| 0 <= m < |t| && t[m] == c;
          assert m != 0 && t'[m - 1] == c;
        }
        if c in t' {
          var k :| 0 <= k < |t'| && t'[k] == c;
          assert t[k + 1] == c && RowMajorLess(t[0], t[k + 1]);
          assert c in s;
          var m :| 0 <= m < |s| && s[m] == c;
          assert m != 0 && s'[m - 1] == c;
        }
      }
      SortedByMembershipIsUnique(s', t');
      assert s == [s[0]] + s' && t == [t[0]] + t';
    }
  }
}
